=== FILE: README.md ===
# PeopleCount provisioning and configuration core, in Dafny

This project models the parts of the PeopleCount firmware (an ESP32 people
counter) that have a failure and recovery policy:

- **Configuration persistence** (`src/configmanager.cpp`). The runtime record
  `cfg` is copied byte for byte into a buffer. The 5-byte magic trailer
  `21 76 87 32 f4` is appended, and the result is stored as one blob under
  namespace and key `paxcntcfg`. `loadConfig` keeps a stored record only when
  three checks pass: the blob has exactly the record length, it ends in the
  trailer, and its version string equals PROGVERSION. Every other path, an
  older or newer version included, ends in factory settings that are written
  back. The version check is `version_compare`. It is a case-insensitive,
  character-by-character comparison and has two quirks, both kept:
  "1.0.9" is above "1.0.10", and two strings that differ only in letter case
  each compare as 1 against the other.
- **WiFi credentials** (`src/configmanager.cpp`). An SSID and password pair
  lives in its own namespace `wifi`. Keys that are missing load as empty
  strings.
- **Provisioning** (`src/wifisetup.cpp`):
  - `connectWifi(ssid, password)` validates the credentials and the radio
    state, then retries at most 10 times while the status is not connected.
  - `initWiFiSetup` goes to setup mode for an empty or "default" SSID.
    Otherwise it makes one connect attempt.
  - `startWiFiSetup` has a re-entry guard.
  - The captive portal has three routes: `GET /`, `POST /save`, and a
    redirect to `http://192.168.4.1` for everything else.
- **Station connect and duplicate scan** (`src/wifiManager.cpp`):
  - `connectWifi()` has two ceilings: 10 retries, and a 300 s wall clock
    measured with `uint32_t` subtraction. Reaching the clock ceiling calls
    `do_reset(false)`. The source's comment describes that call as a reset
    to factory defaults; its body is not part of this model.
  - `analyzeDetectedDevices` reports every pair of slots `i < j < deviceCount`
    whose MAC addresses are equal.

How the hardware is abstracted:

- The non-volatile store (`NvStore`) is a set of created namespaces plus a
  map from (namespace, key) to a blob or a string. It follows what the
  Arduino `Preferences` calls do: a read-only `begin` fails on a namespace
  that was never created; `getBytes` returns 0 for a missing, empty or
  oversized blob and copies a shorter one over the front of the buffer;
  `getString` falls back to its default.
- The radio is an oracle. `before` is the status that the checks ahead of
  `WiFi.begin` read. `poll(k)` is the status read at the k-th check of a
  retry loop. The millisecond clock is an oracle `clock(k)`.
- Driver calls and the reset path are recorded as a list of `Effect`s.
- The two global flags `setupMode` and `isWiFiSetupInProgress` are a `Flags`
  value that each operation takes and returns.
- PROGVERSION is a build-time constant that is not among the modelled files.
  It is a parameter `pv` that must be NUL-free with byte-sized characters.

The layout of `configData_t` is declared in `globals.h`, which is not part of
this model. The record is taken to be packed and 32 bytes long: `char
version[10]` first, then the settings in the order `defaultConfig` assigns
them, multi-byte fields little-endian. `rssilimit` is `int16`; `sleepcycle`,
`wakesync` and `wifichanmap` are `uint16`; every other setting is one byte.
The properties proved do not depend on the order chosen.

Three consequences of the code that are easy to miss:

- `POST /save` with an empty field sends the failure text as `text/html` and
  then reboots, like the success path (wifisetup.cpp:179-184).
- The redirect `Location` is `"http://"` followed by the access point's
  address, `http://192.168.4.1`, with no trailing slash (wifisetup.cpp:189).
- `initWiFiSetup` ignores the result of `connectWifi` (wifisetup.cpp:208).
  It does not start the access point when the connect attempt fails or the
  stored credentials are rejected. For example, an SSID
  with an empty password leaves the device neither connected nor in setup
  mode (`InitWifiSetup`'s contract together with `ConnectWifi`'s).

## Model

| member | source | states |
|---|---|---|
| NvStore.GetBytes | src/configmanager.cpp:92 | a stored blob no longer than the buffer and not empty is read: the count is its length, it is copied over the front of the buffer and the rest of the buffer is unchanged; in every other case (no key, not a blob, empty, too long) the count is 0 and the buffer is left as it was |
| NvStore.GetString | src/configmanager.cpp:150-151 | a string stored under the key of an openable namespace is returned; a missing namespace or key yields the default, and so does any result that is not the stored string |
| NvStore.Clear | src/configmanager.cpp:67 | clearing removes every key of the one namespace and no key of any other namespace |
| Version.Comp | src/configmanager.cpp:19-21 | two letters are ordered by their place in the alphabet whatever their case; two non-letters by code point |
| Version.LexicographicalCompare | src/configmanager.cpp:139-140 | `lexicographical_compare` with `comp` is true exactly when the lower-case form of v1 comes before that of v2 in the reference order (first differing character smaller, or proper prefix) |
| Version.VersionCompare | src/configmanager.cpp:133-144 | only -1, 0 and 1 are returned; 0 exactly for identical strings; -1 exactly for distinct strings whose lower-case forms are ordered v1 before v2; 1 in every other case |
| Version.VersionCompareAntisymmetric | src/configmanager.cpp:133-144 | when the lower-case forms differ, swapping the arguments negates the non-zero result |
| Version.VersionCompareCaseQuirk | src/configmanager.cpp:139-143 | distinct strings that differ only in letter case return 1 in both argument orders |
| Version.VersionCompareNotNumeric | src/configmanager.cpp:139-143 | "1.0.9" vs "1.0.10" gives 1, "1.10" vs "1.9" gives -1, equal strings give 0, "V1.0" and "v1.0" give 1 both ways |
| ConfigManager.Encode | src/configmanager.cpp:72 | the image of a record is 32 bytes and starts with its 10 version bytes; DecodeEncode and EncodeDecode make the copy a bijection |
| ConfigManager.Decode | src/configmanager.cpp:113 | any 32 bytes give a record whose version field is the first 10 bytes |
| ConfigManager.EncodeDecode | src/configmanager.cpp:72 | copying any 32 bytes into the record and back out gives the same bytes |
| ConfigManager.DecodeEncode | src/configmanager.cpp:113 | copying a record out to bytes and back gives the same record |
| ConfigManager.Record | src/configmanager.cpp:14-16 | the stored blob is the 32 record bytes followed by the 5 magic bytes, 37 bytes in all, and its first 32 bytes decode to the record |
| ConfigManager.DefaultConfig | src/configmanager.cpp:24-46 | every setting takes its factory value; the first 9 version bytes are PROGVERSION cut or NUL-padded (strncpy); the 10th version byte is kept from the previous record |
| ConfigManager.FactoryIsUnique | src/configmanager.cpp:24-46 | two factory records that agree on the one byte `defaultConfig` does not write are equal |
| ConfigManager.DefaultConfigIdempotent | src/configmanager.cpp:24-46 | resetting a factory record again changes nothing |
| ConfigManager.CString | src/configmanager.cpp:117 | the version read from the record is the longest NUL-free prefix of its bytes, ended by a NUL when shorter than the record |
| ConfigManager.PaddedVersionReadsBack | src/configmanager.cpp:25-26 | a version field written by `strncpy(.., 9)` reads back as exactly PROGVERSION when PROGVERSION has at most 8 characters, or 9 with a NUL in the 10th byte |
| ConfigManager.FactoryVersionMatches | src/configmanager.cpp:25-26 | a factory record's version string equals PROGVERSION whenever PROGVERSION has at most 8 characters |
| ConfigManager.SaveConfig | src/configmanager.cpp:60-82 | the namespace is created; the blob under `paxcntcfg` becomes the record plus trailer, and the buffer holds the same bytes; with erase, `cfg` becomes the factory record and no other key of the namespace survives; without erase, `cfg` and the other keys stay; no other namespace changes |
| ConfigManager.EraseConfig | src/configmanager.cpp:173-177 | `cfg` becomes the factory record, which is also the buffer and the only key of `paxcntcfg`; no other namespace changes |
| ConfigManager.MigrateConfig | src/configmanager.cpp:55-57 | migration is exactly the erase: factory settings, nothing carried over |
| ConfigManager.StoredBlob | src/configmanager.cpp:90-92 | a blob is found only when the namespace opens read-only and the key holds bytes |
| ConfigManager.StoredPayload | src/configmanager.cpp:96-110 | a payload exists exactly when the found blob is 37 bytes long and ends in the magic bytes; it is then the 32 bytes ahead of the trailer |
| ConfigManager.ReadStage | src/configmanager.cpp:90-104 | a 37-byte blob is copied whole into the buffer; a missing namespace, missing blob or any other length writes factory settings instead |
| ConfigManager.TrailerStage | src/configmanager.cpp:107-110 | afterwards the buffer ends in the trailer; a buffer already ending in it is kept untouched, any other is replaced by written factory settings |
| ConfigManager.VersionStage | src/configmanager.cpp:113-128 | `cfg` becomes the buffer's record when its version string equals PROGVERSION; otherwise, older or newer, factory settings are written |
| ConfigManager.LoadConfig | src/configmanager.cpp:85-129 | an accepted record (intact, same version) becomes `cfg` unchanged and nothing is written; otherwise `cfg` is the factory record and that record is written; never a mixture; the `wifi` namespace is untouched |
| ConfigManager.LoadConfigStages | src/configmanager.cpp:85-129 | the three stages composed give the accept-or-factory outcome in every branch, including a short blob whose partial copy leaves an old trailer in the buffer |
| ConfigManager.LoadConfigResetCauses | src/configmanager.cpp:90-128 | an unopenable namespace, no blob, a wrong length, any trailer byte differing, or a version comparing as older or newer each end in written factory settings |
| ConfigManager.SaveThenLoadRoundTrip | src/configmanager.cpp:72-127 | after `saveConfig(false)` of a record carrying PROGVERSION, `loadConfig` gives the same record byte for byte and leaves state and store unchanged |
| ConfigManager.LoadConfigStable | src/configmanager.cpp:85-129 | with a PROGVERSION of at most 8 characters, a second `loadConfig` leaves everything as the first left it |
| ConfigManager.FreshVersionMatches | src/configmanager.cpp:25-26 | a PROGVERSION of at most 9 characters, copied by `strncpy` into a version field whose 10th byte is 0, reads back as exactly PROGVERSION |
| ConfigManager.LongVersionLosesSettings | src/configmanager.cpp:117 | as written: with a PROGVERSION of 10 or more characters, a record saved without erase is refused by the next `loadConfig`, which puts factory values in every setting |
| ConfigManager.SettingsSurviveReboot | src/configmanager.cpp:60-129 | for a PROGVERSION that fits the field, settings saved without erase are exactly what the next `loadConfig` leaves in `cfg`, and that load writes nothing |
| ConfigManager.FirstBootIsFactory | src/configmanager.cpp:101-104 | on a never-written store `loadConfig` ends with the factory record in `cfg` and in the store |
| WifiCredentials.LoadWiFiConfig | src/configmanager.cpp:147-160 | each field is the string stored under its key in the `wifi` namespace when there is one, and "" when the namespace or the key is missing |
| WifiCredentials.SaveWiFiConfig | src/configmanager.cpp:162-171 | the `wifi` namespace exists afterwards and holds both strings; no other key or namespace changes |
| WifiCredentials.WiFiRoundTrip | src/configmanager.cpp:147-171 | loading after saving returns exactly the saved pair |
| WifiCredentials.BlankStoreHasNoCredentials | src/configmanager.cpp:149-151 | a never-written store loads two empty strings |
| WifiCredentials.ConfigLeavesCredentials | src/configmanager.cpp:63-69 | saving (with or without erase) or loading the configuration never changes the loaded credentials |
| WifiCredentials.CredentialsLeaveConfig | src/configmanager.cpp:162-171 | saving credentials leaves the configuration blob, and whether it would be accepted, as it was |
| WifiSetup.ConnectWifi | src/wifisetup.cpp:22-70 | the driver calls are exactly disconnect, station mode, then one `WiFi.begin` with exactly the given pair, and nothing else, no reset in particular; that `begin` happens iff the SSID and password are non-empty, the SSID has at most 32 characters and the status is connected or idle; otherwise false with no poll; at most 10 failed polls, every counted poll not connected, fewer than 10 only when the next is connected, and the result is true iff the final status is connected; the in-progress flag is false on return |
| WifiSetup.IsInSetupMode | src/wifisetup.cpp:156-158 | true exactly when `startWiFiSetup` would return at once, whatever `softAPConfig` and `softAP` would report |
| WifiSetup.StartWifiSetup | src/wifisetup.cpp:105-154 | already in setup mode: nothing changes; otherwise both flags are raised whatever happens next, and the portal serves at 192.168.4.1 iff `softAPConfig` and `softAP` succeed |
| WifiSetup.StartWifiSetupOnlyOnce | src/wifisetup.cpp:105-109 | every call after the first is a no-op, even when the first failed to configure the access point and left setup mode on with no portal |
| WifiSetup.InitWifiSetup | src/wifisetup.cpp:198-210 | setup mode is entered iff the loaded SSID is empty or "default", and then `startWiFiSetup` decides the outcome; otherwise exactly one `connectWifi` with the loaded pair runs: its driver calls are disconnect, station mode and, iff that pair and the radio status pass the checks, one `WiFi.begin` with that pair, nothing else; its result is unused and setup mode is left as it was |
| CaptivePortal.Arg | src/wifisetup.cpp:169-170 | a form field is the value of the FIRST argument with that name, and "" when no argument has that name |
| CaptivePortal.HandleRequest | src/wifisetup.cpp:160-191 | the device reboots exactly on `POST /save`; no answer is sent only on a reboot that leaves setup mode; without a reboot the store and setup mode are unchanged |
| CaptivePortal.RootServesForm | src/wifisetup.cpp:163-166 | `GET /` answers 200 `text/html` with the setup form and changes nothing |
| CaptivePortal.SaveRoute | src/wifisetup.cpp:168-185 | `POST /save` always reboots; with both fields non-empty it stores exactly that pair and sends nothing; with an empty field it stores nothing and answers 200 with the failure text |
| CaptivePortal.OtherRoutesRedirect | src/wifisetup.cpp:187-191 | any other method or path answers 302 with `Location: http://192.168.4.1` and changes nothing |
| CaptivePortal.StoreChangesOnlyOnSave | src/wifisetup.cpp:160-191 | the store changes only on a complete `POST /save`, and then only the two credential keys |
| CaptivePortal.PortalExamples | src/wifisetup.cpp:168-191 | ssid=Home&password=secret123 stores that pair and reboots; empty fields store nothing and answer the failure text; an unknown path is redirected |
| WifiManager.Elapsed | src/wifiManager.cpp:33-35 | `millis() - startTime` is the forward distance from start to now, counting once through a wrap of the 32-bit counter |
| WifiManager.ElapsedAcrossWrap | src/wifiManager.cpp:33-35 | a start 1000 ms before the wrap and a reading 299000 ms after it measure exactly 300 s |
| WifiManager.ConnectStation | src/wifiManager.cpp:14-53 | the driver calls are exactly stop scan, disconnect, the address setup only in access-point mode, hostname, station mode and one `WiFi.begin` with the loaded credentials, in that order, followed by `do_reset` only when the reset happens and by nothing after it; at most 10 passes; every counted pass saw no connection and less than 300 s; `do_reset` is called iff a pass finds 300 s elapsed, and then the result is false; otherwise the loop ends at 10 passes or on a connected status, and the result is true iff that status is connected |
| WifiManager.RowDuplicatesExact | src/wifiManager.cpp:83-93 | the inner loop for row i from column j reports exactly the pairs (i, j') with j <= j' < count and equal MAC addresses |
| WifiManager.DuplicatesFromExact | src/wifiManager.cpp:81-95 | the outer loop from row i reports exactly the equal-MAC pairs whose first index is at least i |
| WifiManager.AnalyzeDetectedDevices | src/wifiManager.cpp:81-95 | the reports are the nested loops' sequence, and a pair is reported iff i < j < `deviceCount` and the MAC addresses are equal |
| WifiManager.TestDevices | test/test_wifiManager.cpp:5-11 | the test table has 100 slots |
| WifiManager.TestDevicesReportOnePair | test/test_wifiManager.cpp:13-21 | on the test table with 3 devices the only report is (0, 1) |

## Findings

| source | as written | input that shows it | evidently intended | confidence | as-written member | corrected member |
|---|---|---|---|---|---|---|
| src/configmanager.cpp:25-26 | `strncpy(version, PROGVERSION, 9)` keeps only 9 characters, and line 117 then compares the whole PROGVERSION with the stored version, so a PROGVERSION longer than 9 characters never equals a version this firmware wrote | PROGVERSION "3.10.0-rc1" (10 characters): the record is written with version "3.10.0-rc", the next boot reads "3.10.0-rc", `version_compare` returns 1, and `migrateConfig` resets every setting on every boot | a saved configuration survives a reboot of the same firmware | medium; not executed, and PROGVERSION's value is not among the modelled files | ConfigManager.LongVersionLosesSettings | ConfigManager.SettingsSurviveReboot |

The corrected behaviour is the source's own code restricted to a
PROGVERSION that fits the field (`ConfigManager.FitsVersionField`). The
stability lemmas, `ConfigManager.LoadConfigStable` and
`ConfigManager.FactoryVersionMatches`, are stated for at most 8 characters.
With 8 or fewer characters `strncpy` leaves a NUL inside the first 9 bytes
whatever the 10th byte holds.

## Left out

- Logging (`ESP_LOG*`), `delay` timing, the HTML page content, and the 2 s pause before the reboot.
- The DNS server and the radio calls that configure the access point. `softAPConfig` and `softAP` are two boolean parameters. The blocking `handleClient` loop is modelled as one request per step (`HandleRequest`).
- `startWifiScan`, `stopWifiScan` and `set_wifiscan`: radio scanning plumbing. `connectWifi()` records `StopScan` as an effect. `startWifiScan` also has no bound against the 100-slot array.
- `reset_rtc_vars`, which `eraseConfig` calls, and the NTP and RTC objects: time keeping hardware.
- `checkWiFiConnection` (src/wifisetup.cpp:95-103): a disconnect and a `WiFi.begin()` with the driver's own remembered settings when the link is down. None of the modelled operations calls it, and its only content is those two driver calls.
- `do_reset` is not part of this model. Its call is recorded as the `DoReset` effect. "Factory defaults" is how the comment at src/wifiManager.cpp:36-37 describes it.
- `ESP.restart` is the `reboot` flag. Nothing after a reboot is modelled.
- `eraseWiFiConfig` is declared in `include/configmanager.h` but has no definition in the modelled files.
- Failures of the store's read-write `begin` and of `putBytes`/`putString`. The source ignores these results, except that a failed `putBytes` is logged (src/configmanager.cpp:76-79). The model's store always accepts writes.
- `HAS_BME680` sensor state (`bsecstate`) is not part of the modelled record layout.
- ConfigManager.IsFactory: the 10th version byte is not fixed. `strncpy(version, PROGVERSION, 9)` never writes it, so "factory settings" means every byte that `defaultConfig` writes.
- ConfigManager.CString: a version field with no NUL is read on into the following record bytes. If the record holds no NUL at all, the source reads past the struct; the model stops at the end of the record.
- Version.Comp: the contract does not cover a letter compared with a non-letter. The definition compares the letter's lower-case form by code point, so '[' is below 'a' and also below 'A'.
- Version.VersionCompare: strings are NUL-free character sequences. Characters are compared by code point, and `tolower` changes only 'A'..'Z'. This is the C locale. Signed-`char` effects on bytes above 127 are not modelled.
- WifiSetup.ConnectWifi: status reads with no delay between them are taken to see the same status. The source reads `WiFi.status()` again for logging and for the final check.
- WifiSetup.ConnectWifi: SSID length counts characters. The source's `String::length` counts UTF-8 bytes.
- WifiManager.ConnectStation: the same single-poll assumption as `ConnectWifi`. `attempts` is a `uint8_t` in the source; it never exceeds 10, so it cannot wrap.
- WifiManager.ConnectStation: `mode` is whatever `WiFi.getMode()` returns after `WiFi.disconnect(true)`, taken as a parameter; how the driver answers that call is not modelled.
- WifiManager.AnalyzeDetectedDevices: a report is the pair of indices the log line is about, not the log text. The table and `deviceCount` are immutable inputs, so the model cannot express that the function leaves them alone; the source's test only asserts that `deviceCount` is still 3 (test/test_wifiManager.cpp:20).
- NvStore: strings are stored as given. The store would cut a string at an embedded NUL.

=== FILE: config.dfy ===
/** The device configuration record and its persistence: the record is copied
    byte for byte into a buffer, followed by a 5-byte magic trailer, and
    stored as one blob under namespace and key "paxcntcfg". Loading trusts a
    stored blob only when its length, its trailer and its embedded version
    string all check out; every other path ends in factory defaults. */
module ConfigManager {
  import opened Types
  import opened NvStore
  import opened Version

  /** Namespace and key of the record (the source uses the same name for both). */
  const DevConfig := "paxcntcfg"

  /** `char version[10]` at the start of the record. */
  const VersionSize := 10
  /** Bytes of the packed record: 10 version bytes and 22 bytes of settings. */
  const CfgLen := 32
  const Magic: seq<byte> := [0x21, 0x76, 0x87, 0x32, 0xf4]
  /** Length of the stored blob: record plus trailer. */
  const RecordLen := CfgLen + 5

  /** `configData_t`, field by field in the order `defaultConfig` fills it. */
  datatype DeviceConfig = DeviceConfig(
    version: seq<byte>,
    loradr: byte,
    txpower: byte,
    adrmode: byte,
    screensaver: byte,
    screenon: byte,
    countermode: byte,
    rssilimit: int16,
    sendcycle: byte,
    sleepcycle: uint16,
    wakesync: uint16,
    wifichancycle: byte,
    wifichanmap: uint16,
    blescantime: byte,
    blescan: byte,
    wifiscan: byte,
    wifiant: byte,
    rgblum: byte,
    payloadmask: byte)

  predicate WellFormed(c: DeviceConfig)
  {
    |c.version| == VersionSize
  }

  /** `memcpy(buffer, &cfg, cfgLen)`: the in-memory image of the record. */
  function Encode(c: DeviceConfig): (r: seq<byte>)
    requires WellFormed(c)
    ensures |r| == CfgLen
    ensures r[..VersionSize] == c.version
  {
    c.version
    + [c.loradr, c.txpower, c.adrmode, c.screensaver, c.screenon, c.countermode]
    + I16Bytes(c.rssilimit)
    + [c.sendcycle]
    + U16Bytes(c.sleepcycle)
    + U16Bytes(c.wakesync)
    + [c.wifichancycle]
    + U16Bytes(c.wifichanmap)
    + [c.blescantime, c.blescan, c.wifiscan, c.wifiant, c.rgblum, c.payloadmask]
  }

  /** `memcpy(&cfg, buffer, cfgLen)`: any 32 bytes are some record. */
  function Decode(b: seq<byte>): (c: DeviceConfig)
    requires |b| == CfgLen
    ensures WellFormed(c)
    ensures c.version == b[..VersionSize]
  {
    DeviceConfig(
      b[..VersionSize], b[10], b[11], b[12], b[13], b[14], b[15],
      I16Of(b[16], b[17]), b[18], U16Of(b[19], b[20]), U16Of(b[21], b[22]),
      b[23], U16Of(b[24], b[25]), b[26], b[27], b[28], b[29], b[30], b[31])
  }

  /** Copying a record out to bytes and back gives the same record. */
  lemma DecodeEncode(c: DeviceConfig)
    requires WellFormed(c)
    ensures Decode(Encode(c)) == c
  {
    var b := Encode(c);
    I16OfBytes(c.rssilimit);
    U16OfBytes(c.sleepcycle);
    U16OfBytes(c.wakesync);
    U16OfBytes(c.wifichanmap);
    assert b[16..18] == I16Bytes(c.rssilimit);
    assert b[19..21] == U16Bytes(c.sleepcycle);
    assert b[21..23] == U16Bytes(c.wakesync);
    assert b[24..26] == U16Bytes(c.wifichanmap);
  }

  /** Copying bytes into a record and back gives the same bytes. */
  lemma EncodeDecode(b: seq<byte>)
    requires |b| == CfgLen
    ensures Encode(Decode(b)) == b
  {
    var c := Decode(b);
    I16BytesOf(b[16], b[17]);
    U16BytesOf(b[19], b[20]);
    U16BytesOf(b[21], b[22]);
    U16BytesOf(b[24], b[25]);
    var e := Encode(c);
    assert e[16..18] == b[16..18];
    assert e[19..21] == b[19..21];
    assert e[21..23] == b[21..23];
    assert e[24..26] == b[24..26];
    assert forall i :: 0 <= i < CfgLen ==> e[i] == b[i];
  }

  /** The running firmware's version string PROGVERSION: a C string literal,
      so it holds no NUL and every character fits in a byte. */
  predicate ValidProgVersion(pv: string)
  {
    forall i :: 0 <= i < |pv| ==> 0 < pv[i] as int < 0x100
  }

  /** The first `n` bytes `strncpy` writes from `pv`: its characters, then NULs. */
  function Padded(pv: string, n: nat): (r: seq<byte>)
    requires ValidProgVersion(pv)
    ensures |r| == n
    ensures forall i :: 0 <= i < n ==> r[i] as int == (if i < |pv| then pv[i] as int else 0)
  {
    seq(n, i requires 0 <= i < n => if i < |pv| then pv[i] as int as byte else 0)
  }

  /** The factory settings. The version field holds PROGVERSION cut or
      NUL-padded to 9 bytes; its 10th byte is not a factory value. */
  predicate IsFactory(c: DeviceConfig, pv: string)
    requires ValidProgVersion(pv)
  {
    && WellFormed(c)
    && c.version[..VersionSize - 1] == Padded(pv, VersionSize - 1)
    && c.loradr == 5 && c.txpower == 14 && c.adrmode == 1
    && c.screensaver == 0 && c.screenon == 1 && c.countermode == 0
    && c.rssilimit == 0 && c.sendcycle == 30 && c.sleepcycle == 0
    && c.wakesync == 300 && c.wifichancycle == 100 && c.wifichanmap == 0xFFFF
    && c.blescantime == 1 && c.blescan == 1 && c.wifiscan == 1
    && c.wifiant == 0 && c.rgblum == 30 && c.payloadmask == 0xFF
  }

  /** `defaultConfig(&cfg)`: overwrites every field of `prev` with its factory
      value; `strncpy(version, PROGVERSION, 9)` leaves the last version byte
      as it was. */
  function DefaultConfig(prev: DeviceConfig, pv: string): (r: DeviceConfig)
    requires WellFormed(prev) && ValidProgVersion(pv)
    ensures IsFactory(r, pv)
    ensures r.version[VersionSize - 1] == prev.version[VersionSize - 1]
  {
    var version := Padded(pv, VersionSize - 1) + prev.version[VersionSize - 1..];
    assert version[..VersionSize - 1] == Padded(pv, VersionSize - 1);
    DeviceConfig(version, 5, 14, 1, 0, 1, 0, 0, 30, 0, 300, 100, 0xFFFF, 1, 1, 1, 0, 30, 0xFF)
  }

  /** Two factory records agree everywhere once their last version bytes
      agree; in particular resetting twice is resetting once. */
  lemma FactoryIsUnique(a: DeviceConfig, b: DeviceConfig, pv: string)
    requires ValidProgVersion(pv)
    requires IsFactory(a, pv) && IsFactory(b, pv)
    requires a.version[VersionSize - 1] == b.version[VersionSize - 1]
    ensures a == b
  {
    assert a.version == a.version[..VersionSize - 1] + [a.version[VersionSize - 1]];
    assert b.version == b.version[..VersionSize - 1] + [b.version[VersionSize - 1]];
  }

  lemma DefaultConfigIdempotent(prev: DeviceConfig, pv: string)
    requires WellFormed(prev) && ValidProgVersion(pv)
    ensures DefaultConfig(DefaultConfig(prev, pv), pv) == DefaultConfig(prev, pv)
  {
    var d := DefaultConfig(prev, pv);
    FactoryIsUnique(DefaultConfig(d, pv), d, pv);
  }

  /** `cfg.version` read as a C string: characters up to the first NUL. The
      read is not confined to the 10-byte field. */
  function CString(b: seq<byte>): (r: string)
    ensures |r| <= |b|
    ensures forall i :: 0 <= i < |r| ==> b[i] != 0 && r[i] as int == b[i] as int
    ensures |r| < |b| ==> b[|r|] == 0
  {
    if |b| == 0 || b[0] == 0 then [] else [b[0] as int as char] + CString(b[1..])
  }

  function VersionString(c: DeviceConfig): (r: string)
    requires WellFormed(c)
  {
    CString(Encode(c))
  }

  /** A version field as `strncpy` writes it reads back as PROGVERSION when a
      NUL ends the string inside the field: PROGVERSION is shorter than 9
      characters, or it has exactly 9 and the 10th byte is 0. */
  lemma PaddedVersionReadsBack(pv: string, x: byte, rest: seq<byte>)
    requires ValidProgVersion(pv) && FitsVersionField(pv)
    requires |pv| < VersionSize - 1 || x == 0
    ensures CString(Padded(pv, VersionSize - 1) + [x] + rest) == pv
  {
    var b := Padded(pv, VersionSize - 1) + [x] + rest;
    var s := CString(b);
    assert b[|pv|] == 0;
    assert |s| == |pv|;
    forall i | 0 <= i < |s| ensures s[i] == pv[i] {
      assert s[i] as int == b[i] as int == pv[i] as int;
    }
  }

  /** A factory record carries exactly PROGVERSION when PROGVERSION is short
      enough to leave a NUL inside the first 9 bytes. */
  lemma FactoryVersionMatches(c: DeviceConfig, pv: string)
    requires ValidProgVersion(pv) && |pv| < VersionSize - 1
    requires IsFactory(c, pv)
    ensures VersionString(c) == pv
  {
    var b := Encode(c);
    assert c.version == c.version[..VersionSize - 1] + [c.version[VersionSize - 1]];
    assert b == b[..VersionSize] + b[VersionSize..];
    PaddedVersionReadsBack(pv, c.version[VersionSize - 1], b[VersionSize..]);
  }

  /** The runtime state the source keeps in globals: the store, `cfg`, and the
      static read/write buffer. */
  datatype ConfigState = ConfigState(store: Store, cfg: DeviceConfig, buffer: seq<byte>)

  predicate Valid(s: ConfigState)
  {
    WellFormed(s.cfg) && |s.buffer| == RecordLen
  }

  /** The blob `saveConfig` writes for a record. */
  function Record(c: DeviceConfig): (r: seq<byte>)
    requires WellFormed(c)
    ensures |r| == RecordLen
    ensures r[..CfgLen] == Encode(c) && r[CfgLen..] == Magic
    ensures Decode(r[..CfgLen]) == c
  {
    DecodeEncode(c);
    Encode(c) + Magic
  }

  /** No key of namespaces other than "paxcntcfg" differs between the stores. */
  ghost predicate OthersUnchanged(st: Store, st': Store)
  {
    && (forall n, k :: n != DevConfig ==> Lookup(st', n, k) == Lookup(st, n, k))
    && (forall n :: n != DevConfig ==> (CanOpenReadOnly(st', n) <==> CanOpenReadOnly(st, n)))
  }

  /** `saveConfig(erase)`. With `erase` the namespace is cleared and `cfg`
      reset to factory settings first. Either way the blob written is the
      record followed by the magic trailer, and the buffer keeps a copy. */
  function SaveConfig(s: ConfigState, erase: bool, pv: string): (r: ConfigState)
    requires Valid(s) && ValidProgVersion(pv)
    ensures Valid(r)
    ensures r.buffer == Record(r.cfg)
    ensures CanOpenReadOnly(r.store, DevConfig)
    ensures Lookup(r.store, DevConfig, DevConfig) == Some(Blob(Record(r.cfg)))
    ensures erase ==> r.cfg == DefaultConfig(s.cfg, pv)
    ensures erase ==> forall k :: k != DevConfig ==> Lookup(r.store, DevConfig, k) == None
    ensures !erase ==> r.cfg == s.cfg
    ensures !erase ==> forall k :: k != DevConfig ==> Lookup(r.store, DevConfig, k) == Lookup(s.store, DevConfig, k)
    ensures OthersUnchanged(s.store, r.store)
  {
    var st := OpenReadWrite(s.store, DevConfig);
    var st' := if erase then Clear(st, DevConfig) else st;
    var c := if erase then DefaultConfig(s.cfg, pv) else s.cfg;
    ConfigState(Put(st', DevConfig, DevConfig, Blob(Record(c))), c, Record(c))
  }

  /** `eraseConfig`: factory reset of the record (the RTC reset it also
      performs is outside this model). */
  function EraseConfig(s: ConfigState, pv: string): (r: ConfigState)
    requires Valid(s) && ValidProgVersion(pv)
    ensures FactoryWritten(s.store, r, pv)
    ensures r.cfg == DefaultConfig(s.cfg, pv)
  {
    SaveConfig(s, true, pv)
  }

  /** `migrateConfig`: no field is carried over; it is a factory reset. */
  function MigrateConfig(s: ConfigState, pv: string): (r: ConfigState)
    requires Valid(s) && ValidProgVersion(pv)
    ensures r == EraseConfig(s, pv)
    ensures IsFactory(r.cfg, pv)
  {
    EraseConfig(s, pv)
  }

  /** The blob under the record key, when the namespace opens and the key holds bytes. */
  function StoredBlob(st: Store): (r: Option<seq<byte>>)
    ensures r.Some? ==> CanOpenReadOnly(st, DevConfig) && Lookup(st, DevConfig, DevConfig) == Some(Blob(r.value))
    ensures r.None? ==> !CanOpenReadOnly(st, DevConfig) || !Lookup(st, DevConfig, DevConfig).Some?
                        || !Lookup(st, DevConfig, DevConfig).value.Blob?
  {
    if !CanOpenReadOnly(st, DevConfig) then None
    else match Lookup(st, DevConfig, DevConfig)
      case Some(Blob(b)) => Some(b)
      case _ => None
  }

  /** A blob of exactly the record length whose last 5 bytes are the trailer. */
  predicate Intact(b: seq<byte>)
  {
    |b| == RecordLen && b[CfgLen..] == Magic
  }

  /** Reference classification of what is stored: the payload of an intact
      blob, and nothing for a missing namespace, key or corrupt blob. */
  function StoredPayload(st: Store): (r: Option<seq<byte>>)
    ensures r.Some? ==> |r.value| == CfgLen
    ensures r.Some? <==> StoredBlob(st).Some? && Intact(StoredBlob(st).value)
    ensures r.Some? ==> StoredBlob(st).value == r.value + Magic
  {
    match StoredBlob(st)
    case Some(b) =>
      if Intact(b) then
        assert b == b[..CfgLen] + b[CfgLen..];
        Some(b[..CfgLen])
      else None
    case None => None
  }

  /** The stored record is kept: it is intact and was written by this firmware version. */
  predicate Accepted(st: Store, pv: string)
  {
    var p := StoredPayload(st);
    p.Some? && VersionString(Decode(p.value)) == pv
  }

  /** `r` holds factory settings in `cfg` and in the buffer, and the store is
      `st` with the "paxcntcfg" namespace holding only the factory record. */
  ghost predicate FactoryWritten(st: Store, r: ConfigState, pv: string)
    requires ValidProgVersion(pv)
  {
    && Valid(r)
    && IsFactory(r.cfg, pv)
    && r.buffer == Record(r.cfg)
    && CanOpenReadOnly(r.store, DevConfig)
    && Lookup(r.store, DevConfig, DevConfig) == Some(Blob(Record(r.cfg)))
    && (forall k :: k != DevConfig ==> Lookup(r.store, DevConfig, k) == None)
    && OthersUnchanged(st, r.store)
  }

  /** Lines 90-104: open read-only and read the blob into the buffer; a
      missing namespace or a length other than `RecordLen` resets. */
  function ReadStage(s: ConfigState, pv: string): (r: ConfigState)
    requires Valid(s) && ValidProgVersion(pv)
    ensures Valid(r)
    ensures StoredBlob(s.store).Some? && |StoredBlob(s.store).value| == RecordLen ==>
              r == s.(buffer := StoredBlob(s.store).value)
    ensures !(StoredBlob(s.store).Some? && |StoredBlob(s.store).value| == RecordLen) ==>
              FactoryWritten(s.store, r, pv)
  {
    if CanOpenReadOnly(s.store, DevConfig) then
      var read := GetBytes(s.store, DevConfig, DevConfig, s.buffer);
      var s0 := s.(buffer := read.buffer);
      if read.count != RecordLen then MigrateConfig(s0, pv)
      else
        assert read.buffer == read.buffer[..read.count];
        s0
    else EraseConfig(s, pv)
  }

  /** Lines 107-110: a buffer whose tail is not the trailer resets. */
  function TrailerStage(s: ConfigState, pv: string): (r: ConfigState)
    requires Valid(s) && ValidProgVersion(pv)
    ensures Valid(r) && r.buffer[CfgLen..] == Magic
    ensures s.buffer[CfgLen..] == Magic ==> r == s
    ensures s.buffer[CfgLen..] != Magic ==> FactoryWritten(s.store, r, pv)
  {
    if s.buffer[CfgLen..] != Magic then EraseConfig(s, pv) else s
  }

  /** Lines 113-128: copy the buffer into `cfg` and reconcile its version;
      older and newer both reset. */
  function VersionStage(s: ConfigState, pv: string): (r: ConfigState)
    requires Valid(s) && ValidProgVersion(pv)
    ensures Valid(r)
    ensures VersionString(Decode(s.buffer[..CfgLen])) == pv ==>
              r == s.(cfg := Decode(s.buffer[..CfgLen]))
    ensures VersionString(Decode(s.buffer[..CfgLen])) != pv ==> FactoryWritten(s.store, r, pv)
  {
    var s3 := s.(cfg := Decode(s.buffer[..CfgLen]));
    match VersionCompare(pv, VersionString(s3.cfg))
    case -1 => EraseConfig(s3, pv)
    case 1 => MigrateConfig(s3, pv)
    case _ => s3
  }

  /** `loadConfig`: `cfg` ends as exactly the stored record, when that record
      is accepted, and as factory settings otherwise, never a mixture; in the
      second case the factory record has been written back. */
  function LoadConfig(s: ConfigState, pv: string): (r: ConfigState)
    requires Valid(s) && ValidProgVersion(pv)
    ensures Valid(r)
    ensures r.buffer == Record(r.cfg)
    ensures Accepted(s.store, pv) ==>
              r.store == s.store && r.cfg == Decode(StoredPayload(s.store).value)
    ensures !Accepted(s.store, pv) ==> FactoryWritten(s.store, r, pv)
    ensures OthersUnchanged(s.store, r.store)
  {
    LoadConfigStages(s, pv);
    VersionStage(TrailerStage(ReadStage(s, pv), pv), pv)
  }

  lemma FactoryWrittenFrom(st0: Store, st: Store, r: ConfigState, pv: string)
    requires ValidProgVersion(pv)
    requires OthersUnchanged(st0, st) && FactoryWritten(st, r, pv)
    ensures FactoryWritten(st0, r, pv)
  {
  }

  /** The three stages of `loadConfig` composed, case by case. */
  lemma LoadConfigStages(s: ConfigState, pv: string)
    requires Valid(s) && ValidProgVersion(pv)
    ensures var r := VersionStage(TrailerStage(ReadStage(s, pv), pv), pv);
            && r.buffer == Record(r.cfg)
            && (Accepted(s.store, pv) ==>
                  r.store == s.store && r.cfg == Decode(StoredPayload(s.store).value))
            && (!Accepted(s.store, pv) ==> FactoryWritten(s.store, r, pv))
            && OthersUnchanged(s.store, r.store)
  {
    var s1 := ReadStage(s, pv);
    var s2 := TrailerStage(s1, pv);
    var r := VersionStage(s2, pv);
    var p := StoredPayload(s.store);
    if p.Some? {
      var b := StoredBlob(s.store).value;
      assert s1 == s.(buffer := b);
      assert s2 == s1;
      assert b[..CfgLen] == p.value;
      EncodeDecode(p.value);
      assert b == Record(Decode(p.value));
    } else if s1.buffer[CfgLen..] == Magic {
      assert FactoryWritten(s.store, s1, pv);
      assert s2 == s1;
      assert Decode(s2.buffer[..CfgLen]) == s2.cfg;
      if VersionString(s2.cfg) != pv {
        FactoryWrittenFrom(s.store, s2.store, r, pv);
      }
    } else {
      assert FactoryWritten(s1.store, s2, pv);
      assert OthersUnchanged(s.store, s1.store);
      FactoryWrittenFrom(s.store, s1.store, s2, pv);
      assert Decode(s2.buffer[..CfgLen]) == s2.cfg;
      if VersionString(s2.cfg) != pv {
        FactoryWrittenFrom(s.store, s2.store, r, pv);
      }
    }
  }

  /** The reasons `loadConfig` falls back to factory settings, as the source
      lists them: the namespace does not open, nothing or something other than
      a blob is stored, the blob has the wrong length, its trailer differs
      from the magic bytes, or its version is older or newer than PROGVERSION. */
  lemma LoadConfigResetCauses(s: ConfigState, pv: string)
    requires Valid(s) && ValidProgVersion(pv)
    requires || !CanOpenReadOnly(s.store, DevConfig)
             || (forall b :: Lookup(s.store, DevConfig, DevConfig) != Some(Blob(b)))
             || (exists b :: Lookup(s.store, DevConfig, DevConfig) == Some(Blob(b)) && |b| != RecordLen)
             || (exists b, i :: Lookup(s.store, DevConfig, DevConfig) == Some(Blob(b)) && |b| == RecordLen
                                && 0 <= i < |Magic| && b[CfgLen + i] != Magic[i])
             || (exists b :: Lookup(s.store, DevConfig, DevConfig) == Some(Blob(b)) && Intact(b)
                             && VersionCompare(pv, VersionString(Decode(b[..CfgLen]))) != 0)
    ensures FactoryWritten(s.store, LoadConfig(s, pv), pv)
  {
    var p := StoredPayload(s.store);
    if p.Some? {
      var b := StoredBlob(s.store).value;
      assert b[..CfgLen] == p.value;
    }
  }

  /** Saving without erase and loading again, with nothing else touching the
      store, gives back the same record byte for byte and writes nothing,
      provided the record carries the running version. */
  lemma SaveThenLoadRoundTrip(s: ConfigState, pv: string)
    requires Valid(s) && ValidProgVersion(pv)
    requires VersionString(s.cfg) == pv
    ensures LoadConfig(SaveConfig(s, false, pv), pv) == SaveConfig(s, false, pv)
    ensures LoadConfig(SaveConfig(s, false, pv), pv).cfg == s.cfg
    ensures Encode(LoadConfig(SaveConfig(s, false, pv), pv).cfg) == Encode(s.cfg)
  {
    var saved := SaveConfig(s, false, pv);
    assert StoredBlob(saved.store) == Some(Record(s.cfg));
    assert StoredPayload(saved.store) == Some(Encode(s.cfg));
    DecodeEncode(s.cfg);
    assert Accepted(saved.store, pv);
  }

  /** With a PROGVERSION of at most 8 characters, loading twice is loading
      once: whatever the first load leaves behind, the second accepts. */
  lemma LoadConfigStable(s: ConfigState, pv: string)
    requires Valid(s) && ValidProgVersion(pv) && |pv| < VersionSize - 1
    ensures LoadConfig(LoadConfig(s, pv), pv) == LoadConfig(s, pv)
  {
    var r1 := LoadConfig(s, pv);
    if !Accepted(s.store, pv) {
      assert StoredBlob(r1.store) == Some(Record(r1.cfg));
      assert StoredPayload(r1.store) == Some(Encode(r1.cfg));
      DecodeEncode(r1.cfg);
      FactoryVersionMatches(r1.cfg, pv);
      assert Accepted(r1.store, pv);
    }
  }

  /** PROGVERSION fits the 9 characters `strncpy` copies into the version
      field, so the version read back from a record can equal it. */
  predicate FitsVersionField(pv: string)
  {
    |pv| <= VersionSize - 1
  }

  /** The version field as `defaultConfig` leaves it in a record whose 10th
      version byte was never written: `cfg` is a zero-initialised global. */
  predicate FreshVersionField(c: DeviceConfig, pv: string)
    requires ValidProgVersion(pv)
  {
    && WellFormed(c)
    && c.version[..VersionSize - 1] == Padded(pv, VersionSize - 1)
    && c.version[VersionSize - 1] == 0
  }

  /** A version that fits is read back exactly from such a field. */
  lemma FreshVersionMatches(c: DeviceConfig, pv: string)
    requires ValidProgVersion(pv) && FitsVersionField(pv) && FreshVersionField(c, pv)
    ensures VersionString(c) == pv
  {
    var b := Encode(c);
    assert c.version == c.version[..VersionSize - 1] + [c.version[VersionSize - 1]];
    assert b == b[..VersionSize] + b[VersionSize..];
    PaddedVersionReadsBack(pv, c.version[VersionSize - 1], b[VersionSize..]);
  }

  /** As written, a PROGVERSION of 10 or more characters is cut to 9 by
      `strncpy`, so the version read back is never PROGVERSION: a record
      saved without erase is refused at the next `loadConfig` and every
      setting in it is replaced by its factory value. */
  lemma LongVersionLosesSettings(s: ConfigState, pv: string)
    requires Valid(s) && ValidProgVersion(pv) && |pv| >= VersionSize
    requires FreshVersionField(s.cfg, pv)
    ensures !Accepted(SaveConfig(s, false, pv).store, pv)
    ensures IsFactory(LoadConfig(SaveConfig(s, false, pv), pv).cfg, pv)
  {
  }

  /** The intended behaviour, which holds for every PROGVERSION that fits the
      field: settings saved without erase survive the next `loadConfig`
      unchanged, and the load writes nothing. */
  lemma SettingsSurviveReboot(s: ConfigState, pv: string)
    requires Valid(s) && ValidProgVersion(pv) && FitsVersionField(pv)
    requires FreshVersionField(s.cfg, pv)
    ensures LoadConfig(SaveConfig(s, false, pv), pv).cfg == s.cfg
    ensures LoadConfig(SaveConfig(s, false, pv), pv).store == SaveConfig(s, false, pv).store
  {
    FreshVersionMatches(s.cfg, pv);
    SaveThenLoadRoundTrip(s, pv);
  }

  /** On first boot, with nothing ever stored, the device runs on factory
      settings and has written them. */
  lemma FirstBootIsFactory(cfg: DeviceConfig, buffer: seq<byte>, pv: string)
    requires WellFormed(cfg) && |buffer| == RecordLen && ValidProgVersion(pv)
    ensures FactoryWritten(Blank, LoadConfig(ConfigState(Blank, cfg, buffer), pv), pv)
  {
    LoadConfigResetCauses(ConfigState(Blank, cfg, buffer), pv);
  }
}

=== FILE: credentials.dfy ===
/** The WiFi credential pair, kept in its own store namespace "wifi". */
module WifiCredentials {
  import opened Types
  import opened NvStore
  import ConfigManager

  const WifiNamespace := "wifi"
  const SsidKey := "ssid"
  const PasswordKey := "password"

  datatype Credentials = Credentials(ssid: string, password: string)

  /** `loadWiFiConfig`: each field is the stored string, or empty when the
      namespace or the key is missing. */
  function LoadWiFiConfig(st: Store): (r: Credentials)
    ensures !CanOpenReadOnly(st, WifiNamespace) ==> r == Credentials("", "")
    ensures Lookup(st, WifiNamespace, SsidKey) == None ==> r.ssid == ""
    ensures Lookup(st, WifiNamespace, PasswordKey) == None ==> r.password == ""
    ensures (CanOpenReadOnly(st, WifiNamespace) && Lookup(st, WifiNamespace, SsidKey) == Some(Text(r.ssid)))
            || r.ssid == ""
    ensures (CanOpenReadOnly(st, WifiNamespace) && Lookup(st, WifiNamespace, PasswordKey) == Some(Text(r.password)))
            || r.password == ""
    ensures forall t :: CanOpenReadOnly(st, WifiNamespace) && Lookup(st, WifiNamespace, SsidKey) == Some(Text(t))
              ==> r.ssid == t
    ensures forall t :: CanOpenReadOnly(st, WifiNamespace) && Lookup(st, WifiNamespace, PasswordKey) == Some(Text(t))
              ==> r.password == t
  {
    Credentials(GetString(st, WifiNamespace, SsidKey, ""), GetString(st, WifiNamespace, PasswordKey, ""))
  }

  /** `saveWiFiConfig`: opens "wifi" for writing and stores both strings; no
      other key of any namespace changes. */
  function SaveWiFiConfig(st: Store, c: Credentials): (r: Store)
    ensures CanOpenReadOnly(r, WifiNamespace)
    ensures Lookup(r, WifiNamespace, SsidKey) == Some(Text(c.ssid))
    ensures Lookup(r, WifiNamespace, PasswordKey) == Some(Text(c.password))
    ensures forall n, k :: !(n == WifiNamespace && (k == SsidKey || k == PasswordKey)) ==>
              Lookup(r, n, k) == Lookup(st, n, k)
    ensures forall n :: n != WifiNamespace ==> (CanOpenReadOnly(r, n) <==> CanOpenReadOnly(st, n))
  {
    var st1 := OpenReadWrite(st, WifiNamespace);
    Put(Put(st1, WifiNamespace, SsidKey, Text(c.ssid)), WifiNamespace, PasswordKey, Text(c.password))
  }

  /** Whatever was saved is what is loaded back, empty strings included. */
  lemma WiFiRoundTrip(st: Store, c: Credentials)
    ensures LoadWiFiConfig(SaveWiFiConfig(st, c)) == c
  {
  }

  /** A device that never stored credentials loads two empty strings. */
  lemma BlankStoreHasNoCredentials()
    ensures LoadWiFiConfig(Blank) == Credentials("", "")
  {
  }

  /** The two namespaces have separate lifecycles: saving, erasing or loading
      the configuration record never changes the stored credentials. */
  lemma ConfigLeavesCredentials(s: ConfigManager.ConfigState, erase: bool, pv: string)
    requires ConfigManager.Valid(s) && ConfigManager.ValidProgVersion(pv)
    ensures LoadWiFiConfig(ConfigManager.SaveConfig(s, erase, pv).store) == LoadWiFiConfig(s.store)
    ensures LoadWiFiConfig(ConfigManager.LoadConfig(s, pv).store) == LoadWiFiConfig(s.store)
  {
  }

  /** Saving credentials leaves the configuration record, and whether the
      next `loadConfig` accepts it, as it was. */
  lemma CredentialsLeaveConfig(st: Store, c: Credentials, pv: string)
    ensures ConfigManager.StoredBlob(SaveWiFiConfig(st, c)) == ConfigManager.StoredBlob(st)
    ensures ConfigManager.Accepted(SaveWiFiConfig(st, c), pv) == ConfigManager.Accepted(st, pv)
  {
    assert ConfigManager.StoredPayload(SaveWiFiConfig(st, c)) == ConfigManager.StoredPayload(st);
  }
}

=== FILE: portal.dfy ===
/** The captive portal's three routes, each handled as one step from a
    request to its response, its store effect and whether the device reboots. */
module CaptivePortal {
  import opened Types
  import opened NvStore
  import opened WifiCredentials
  import WifiSetup

  datatype HttpMethod = Get | Post | OtherMethod

  /** A request after the web server has parsed the form arguments. */
  datatype Request = Request(verb: HttpMethod, path: string, args: seq<(string, string)>)

  /** The setup page's HTML is not modelled, only which body is sent. */
  datatype Body = SetupForm | Plain(text: string)

  datatype Response = Response(code: int, contentType: string, headers: seq<(string, string)>, body: Body)

  /** `response` is None when the device reboots before answering. */
  datatype Outcome = Outcome(response: Option<Response>, store: Store, setupMode: bool, reboot: bool)

  const InvalidText := "Invalid SSID or Password"

  /** `server.arg(name)`: the first argument of that name, or "". */
  function Arg(args: seq<(string, string)>, name: string): (r: string)
    ensures (exists i :: 0 <= i < |args| && args[i] == (name, r)) || r == ""
    ensures (forall i :: 0 <= i < |args| ==> args[i].0 != name) ==> r == ""
    ensures forall i :: 0 <= i < |args| && args[i].0 == name && (forall j :: 0 <= j < i ==> args[j].0 != name)
              ==> r == args[i].1
  {
    if |args| == 0 then ""
    else if args[0].0 == name then args[0].1
    else Arg(args[1..], name)
  }

  /** The redirect target: "http://" followed by the access point address. */
  function RedirectTarget(): (r: string)
  {
    "http://" + WifiSetup.ApAddress
  }

  /** The handlers registered in `setupWebServer`, dispatched on exact method
      and path; everything else goes to the not-found handler. */
  function HandleRequest(req: Request, store: Store, setupMode: bool): (r: Outcome)
    ensures r.reboot <==> req.verb == Post && req.path == "/save"
    ensures r.response.None? ==> r.reboot && !r.setupMode
    ensures !r.reboot ==> r.store == store && r.setupMode == setupMode
  {
    if req.verb == Get && req.path == "/" then
      Outcome(Some(Response(200, "text/html", [], SetupForm)), store, setupMode, false)
    else if req.verb == Post && req.path == "/save" then
      var ssid := Arg(req.args, "ssid");
      var password := Arg(req.args, "password");
      if |ssid| > 0 && |password| > 0 then
        Outcome(None, SaveWiFiConfig(store, Credentials(ssid, password)), false, true)
      else
        Outcome(Some(Response(200, "text/html", [], Plain(InvalidText))), store, setupMode, true)
    else
      Outcome(Some(Response(302, "text/plain", [("Location", RedirectTarget())], Plain(""))), store, setupMode, false)
  }

  /** `GET /` serves the form and changes nothing. */
  lemma RootServesForm(store: Store, setupMode: bool, args: seq<(string, string)>)
    ensures HandleRequest(Request(Get, "/", args), store, setupMode)
            == Outcome(Some(Response(200, "text/html", [], SetupForm)), store, setupMode, false)
  {
  }

  /** `POST /save` always ends in a reboot. With both fields non-empty the
      credentials are stored, exactly as submitted, and no answer is sent;
      with either field empty the failure text is sent and nothing is stored. */
  lemma SaveRoute(args: seq<(string, string)>, store: Store, setupMode: bool)
    ensures var r := HandleRequest(Request(Post, "/save", args), store, setupMode);
            var c := Credentials(Arg(args, "ssid"), Arg(args, "password"));
            && r.reboot
            && (|c.ssid| > 0 && |c.password| > 0 ==>
                  r.response == None && !r.setupMode && LoadWiFiConfig(r.store) == c
                  && r.store == SaveWiFiConfig(store, c))
            && (|c.ssid| == 0 || |c.password| == 0 ==>
                  r.store == store && r.response == Some(Response(200, "text/html", [], Plain(InvalidText))))
  {
    WiFiRoundTrip(store, Credentials(Arg(args, "ssid"), Arg(args, "password")));
  }

  /** Any other method or path is redirected to the access point's own address. */
  lemma OtherRoutesRedirect(req: Request, store: Store, setupMode: bool)
    requires !(req.verb == Get && req.path == "/") && !(req.verb == Post && req.path == "/save")
    ensures var r := HandleRequest(req, store, setupMode);
            && r.response.Some? && r.response.value.code == 302
            && r.response.value.headers == [("Location", "http://192.168.4.1")]
            && r.store == store && !r.reboot
  {
    assert RedirectTarget() == "http://192.168.4.1";
  }

  /** Only a complete `POST /save` writes to the store, and it writes only the
      two credential keys. */
  lemma StoreChangesOnlyOnSave(req: Request, store: Store, setupMode: bool)
    ensures var r := HandleRequest(req, store, setupMode);
            r.store != store ==>
              && req.verb == Post && req.path == "/save"
              && |Arg(req.args, "ssid")| > 0 && |Arg(req.args, "password")| > 0
              && (forall n, k :: !(n == WifiNamespace && (k == SsidKey || k == PasswordKey)) ==>
                    Lookup(r.store, n, k) == Lookup(store, n, k))
  {
  }

  /** The worked examples: a complete form stores "Home"/"secret123"; an empty
      one stores nothing; an unknown path is redirected. */
  lemma PortalExamples(store: Store)
    ensures var r := HandleRequest(Request(Post, "/save", [("ssid", "Home"), ("password", "secret123")]), store, true);
            LoadWiFiConfig(r.store) == Credentials("Home", "secret123") && r.reboot
    ensures var r := HandleRequest(Request(Post, "/save", [("ssid", ""), ("password", "")]), store, true);
            r.store == store && r.response.Some? && r.response.value.body == Plain(InvalidText)
    ensures HandleRequest(Request(Get, "/generate_204", []), store, true).response.value.code == 302
  {
    var args := [("ssid", "Home"), ("password", "secret123")];
    assert Arg(args, "ssid") == "Home";
    assert Arg(args, "password") == "secret123";
    SaveRoute(args, store, true);
  }
}

=== FILE: radio.dfy ===
/** What the provisioning code sees of the WiFi driver: the status values it
    compares against, and the calls it makes, recorded as effects. */
module Radio {
  import opened WifiCredentials

  /** `wl_status_t`. */
  datatype Status =
    | NoShield
    | IdleStatus
    | NoSsidAvail
    | ScanCompleted
    | Connected
    | ConnectFailed
    | ConnectionLost
    | Disconnected

  datatype Mode = Off | Station | AccessPoint

  /** Calls into the driver and the reset path, in the order they are made. */
  datatype Effect =
    | StopScan
    | Disconnect
    | ConfigureAddress
    | SetHostname
    | SetMode(mode: Mode)
    | Begin(credentials: Credentials)
    /** `do_reset(false)`; its body is not part of this model. */
    | DoReset
}

=== FILE: store.dfy ===
/** The ESP32 non-volatile store as seen through the Arduino `Preferences`
    class: a set of namespaces and a map from (namespace, key) to a typed
    value. Only the behaviour the configuration code relies on is modelled. */
module NvStore {
  import opened Types

  datatype Value = Blob(bytes: seq<byte>) | Text(text: string)

  datatype Store = Store(namespaces: set<string>, entries: map<(string, string), Value>)

  /** Flash that has never been written. */
  const Blank: Store := Store({}, map[])

  function Lookup(st: Store, ns: string, key: string): (r: Option<Value>)
  {
    if (ns, key) in st.entries then Some(st.entries[(ns, key)]) else None
  }

  /** `begin(ns, true)`: a read-only open fails for a namespace that was never created. */
  predicate CanOpenReadOnly(st: Store, ns: string)
  {
    ns in st.namespaces
  }

  /** `begin(ns, false)`: a read-write open creates the namespace. */
  function OpenReadWrite(st: Store, ns: string): (r: Store)
    ensures CanOpenReadOnly(r, ns)
    ensures forall n, k :: Lookup(r, n, k) == Lookup(st, n, k)
    ensures forall n :: n != ns ==> (CanOpenReadOnly(r, n) <==> CanOpenReadOnly(st, n))
  {
    st.(namespaces := st.namespaces + {ns})
  }

  /** `clear()`: removes every key of the open namespace and nothing else. */
  function Clear(st: Store, ns: string): (r: Store)
    ensures r.namespaces == st.namespaces
    ensures forall n, k :: Lookup(r, n, k) == (if n == ns then None else Lookup(st, n, k))
  {
    st.(entries := map e | e in st.entries && e.0 != ns :: st.entries[e])
  }

  /** `putBytes` / `putString`: one key of the open namespace is overwritten. */
  function Put(st: Store, ns: string, key: string, v: Value): (r: Store)
    ensures r.namespaces == st.namespaces
    ensures forall n, k :: Lookup(r, n, k) == (if n == ns && k == key then Some(v) else Lookup(st, n, k))
  {
    st.(entries := st.entries[(ns, key) := v])
  }

  datatype BytesRead = BytesRead(count: nat, buffer: seq<byte>)

  /** `getBytes(key, buf, |buf|)` on an open namespace: a missing key, a
      value that is not a blob, an empty blob and a blob longer than the
      buffer all read as 0 bytes and leave the buffer alone; otherwise the
      blob is copied over the front of the buffer and its length returned. */
  function GetBytes(st: Store, ns: string, key: string, buf: seq<byte>): (r: BytesRead)
    ensures |r.buffer| == |buf| && r.count <= |buf|
    ensures r.count == 0 ==> r.buffer == buf
    ensures r.count > 0 ==>
      && Lookup(st, ns, key) == Some(Blob(r.buffer[..r.count]))
      && r.buffer[r.count..] == buf[r.count..]
    ensures forall d :: Lookup(st, ns, key) == Some(Blob(d)) && 0 < |d| <= |buf| ==> r.count == |d|
  {
    match Lookup(st, ns, key)
    case Some(Blob(d)) =>
      if 0 < |d| <= |buf| then BytesRead(|d|, d + buf[|d|..]) else BytesRead(0, buf)
    case _ => BytesRead(0, buf)
  }

  /** `getString(key, default)`: the default when the namespace could not be
      opened, the key is missing, or it does not hold a string. */
  function GetString(st: Store, ns: string, key: string, default: string): (r: string)
    ensures (CanOpenReadOnly(st, ns) && Lookup(st, ns, key) == Some(Text(r))) || r == default
    ensures !CanOpenReadOnly(st, ns) || Lookup(st, ns, key) == None ==> r == default
    ensures forall t :: CanOpenReadOnly(st, ns) && Lookup(st, ns, key) == Some(Text(t)) ==> r == t
  {
    if !CanOpenReadOnly(st, ns) then default
    else match Lookup(st, ns, key)
      case Some(Text(s)) => s
      case _ => default
  }
}

=== FILE: types.dfy ===
/** Machine integer widths, the Option wrapper, and the little-endian
    encodings the ESP32 uses when a struct is copied byte for byte. */
module Types {

  newtype byte = b: int | 0 <= b < 0x100
  newtype uint16 = x: int | 0 <= x < 0x1_0000
  newtype int16 = x: int | -0x8000 <= x < 0x8000
  newtype uint32 = x: int | 0 <= x < 0x1_0000_0000

  datatype Option<T> = None | Some(value: T)

  /** Two bytes, low byte first. */
  function U16Bytes(x: uint16): (r: seq<byte>)
    ensures |r| == 2
    ensures r[0] as int + 0x100 * r[1] as int == x as int
  {
    [(x as int % 0x100) as byte, (x as int / 0x100) as byte]
  }

  function U16Of(lo: byte, hi: byte): (r: uint16)
  {
    (lo as int + 0x100 * hi as int) as uint16
  }

  lemma U16OfBytes(x: uint16)
    ensures U16Of(U16Bytes(x)[0], U16Bytes(x)[1]) == x
  {
  }

  lemma U16BytesOf(lo: byte, hi: byte)
    ensures U16Bytes(U16Of(lo, hi)) == [lo, hi]
  {
    var x := lo as int + 0x100 * hi as int;
    assert x % 0x100 == lo as int && x / 0x100 == hi as int;
  }

  /** Two's complement reading of a 16-bit quantity. */
  function I16Bytes(x: int16): (r: seq<byte>)
    ensures |r| == 2
  {
    U16Bytes(if x < 0 then (x as int + 0x1_0000) as uint16 else x as int as uint16)
  }

  function I16Of(lo: byte, hi: byte): (r: int16)
  {
    var u := U16Of(lo, hi) as int;
    (if u >= 0x8000 then u - 0x1_0000 else u) as int16
  }

  lemma I16OfBytes(x: int16)
    ensures I16Of(I16Bytes(x)[0], I16Bytes(x)[1]) == x
  {
    var u := if x < 0 then (x as int + 0x1_0000) as uint16 else x as int as uint16;
    U16OfBytes(u);
  }

  lemma I16BytesOf(lo: byte, hi: byte)
    ensures I16Bytes(I16Of(lo, hi)) == [lo, hi]
  {
    U16BytesOf(lo, hi);
  }
}

=== FILE: version.dfy ===
/** The firmware's version comparison: `std::lexicographical_compare` with a
    case-insensitive character predicate. It is a plain character order, not a
    numeric ordering of dotted fields. */
module Version {

  /** `tolower` in the C locale: only 'A'..'Z' change. */
  function ToLower(c: char): (r: char)
  {
    if 'A' <= c <= 'Z' then (c as int + 32) as char else c
  }

  predicate IsLetter(c: char)
  {
    'A' <= c <= 'Z' || 'a' <= c <= 'z'
  }

  /** A letter's position in the alphabet, whatever its case. */
  function AlphabetIndex(c: char): (r: int)
    requires IsLetter(c)
  {
    if 'a' <= c then c as int - 'a' as int else c as int - 'A' as int
  }

  /** `comp`, the predicate handed to `lexicographical_compare`: letters are
      ordered by their place in the alphabet regardless of case, other
      characters by code point. */
  function Comp(a: char, b: char): (r: bool)
    ensures IsLetter(a) && IsLetter(b) ==> (r <==> AlphabetIndex(a) < AlphabetIndex(b))
    ensures !IsLetter(a) && !IsLetter(b) ==> (r <==> a < b)
  {
    ToLower(a) < ToLower(b)
  }

  function Lower(s: string): (r: string)
    ensures |r| == |s|
    ensures forall i :: 0 <= i < |s| ==> r[i] == ToLower(s[i])
  {
    seq(|s|, i requires 0 <= i < |s| => ToLower(s[i]))
  }

  /** Reference order: `a` is below `b` when at the first position where they
      differ `a` has the smaller character, or when `a` is a proper prefix of `b`. */
  ghost predicate LexLess(a: string, b: string)
  {
    || (exists k :: 0 <= k < |a| && k < |b| && a[..k] == b[..k] && a[k] < b[k])
    || (|a| < |b| && a == b[..|a|])
  }

  /** `std::lexicographical_compare(a, a + |a|, b, b + |b|, Comp)`, one step
      of its loop per call. It orders strings exactly as the reference order
      orders their lower-case forms. */
  function LexicographicalCompare(a: string, b: string): (r: bool)
    ensures r <==> LexLess(Lower(a), Lower(b))
    decreases |a|
  {
    if |b| == 0 then false
    else if |a| == 0 then
      assert Lower(a) == Lower(b)[..0];
      true
    else if Comp(a[0], b[0]) then
      HeadDecides(Lower(a), Lower(b));
      true
    else if Comp(b[0], a[0]) then
      HeadDecides(Lower(a), Lower(b));
      false
    else
      assert Lower(a[1..]) == Lower(a)[1..];
      assert Lower(b[1..]) == Lower(b)[1..];
      LexLessTail(Lower(a), Lower(b));
      LexicographicalCompare(a[1..], b[1..])
  }

  /** Once the heads agree, the reference order is decided by the tails. */
  lemma LexLessTail(a: string, b: string)
    requires |a| > 0 && |b| > 0 && a[0] == b[0]
    ensures LexLess(a, b) <==> LexLess(a[1..], b[1..])
  {
    var a', b' := a[1..], b[1..];
    if LexLess(a, b) {
      if k :| 0 <= k < |a| && k < |b| && a[..k] == b[..k] && a[k] < b[k] {
        assert k > 0;
        assert a'[..k - 1] == a[1..k] == b[1..k] == b'[..k - 1];
        assert a'[k - 1] < b'[k - 1];
      } else {
        assert |a'| < |b'| && a' == b'[..|a'|];
      }
    }
    if LexLess(a', b') {
      if k :| 0 <= k < |a'| && k < |b'| && a'[..k] == b'[..k] && a'[k] < b'[k] {
        assert a[..k + 1] == [a[0]] + a'[..k] == [b[0]] + b'[..k] == b[..k + 1];
        assert a[k + 1] < b[k + 1];
      } else {
        assert a == [a[0]] + a' == [b[0]] + b'[..|a'|] == b[..|a|];
      }
    }
  }

  /** A string is never below itself. */
  lemma LexLessIrreflexive(a: string)
    ensures !LexLess(a, a)
  {
  }

  lemma {:induction false} LexLessAsymmetric(a: string, b: string)
    ensures !(LexLess(a, b) && LexLess(b, a))
    decreases |a|
  {
    if |a| == 0 || |b| == 0 {
    } else if a[0] != b[0] {
      if LexLess(a, b) && LexLess(b, a) {
        HeadDecides(a, b);
        HeadDecides(b, a);
      }
    } else {
      LexLessTail(a, b);
      LexLessTail(b, a);
      LexLessAsymmetric(a[1..], b[1..]);
    }
  }

  /** With different heads the order is the order of the heads. */
  lemma HeadDecides(a: string, b: string)
    requires |a| > 0 && |b| > 0 && a[0] != b[0]
    ensures LexLess(a, b) <==> a[0] < b[0]
  {
    if a[0] < b[0] {
      assert a[..0] == b[..0];
    }
  }

  lemma {:induction false} LexLessTotal(a: string, b: string)
    requires a != b
    ensures LexLess(a, b) || LexLess(b, a)
    decreases |a|
  {
    if |a| == 0 {
      assert a == b[..0];
    } else if |b| == 0 {
      assert b == a[..0];
    } else if a[0] != b[0] {
      HeadDecides(a, b);
      HeadDecides(b, a);
    } else {
      assert a == [a[0]] + a[1..] && b == [b[0]] + b[1..];
      LexLessTotal(a[1..], b[1..]);
      LexLessTail(a, b);
      LexLessTail(b, a);
    }
  }

  /** `version_compare(v1, v2)`: 0 for identical strings, -1 when `v1` is
      below `v2` ignoring case, and 1 in every other case. */
  function VersionCompare(v1: string, v2: string): (r: int)
    ensures r == 0 || r == -1 || r == 1
    ensures r == 0 <==> v1 == v2
    ensures r == -1 <==> v1 != v2 && LexLess(Lower(v1), Lower(v2))
    ensures r == 1 <==> v1 != v2 && !LexLess(Lower(v1), Lower(v2))
  {
    if v1 == v2 then 0
    else if LexicographicalCompare(v1, v2) then -1
    else 1
  }

  /** Swapping the arguments negates the answer, unless the two strings
      differ only in letter case. */
  lemma VersionCompareAntisymmetric(v1: string, v2: string)
    requires Lower(v1) != Lower(v2)
    ensures VersionCompare(v1, v2) == -VersionCompare(v2, v1)
    ensures VersionCompare(v1, v2) != 0
  {
    LexLessTotal(Lower(v1), Lower(v2));
    LexLessAsymmetric(Lower(v1), Lower(v2));
  }

  /** Strings that differ only in letter case each compare greater than the other. */
  lemma VersionCompareCaseQuirk(v1: string, v2: string)
    requires v1 != v2 && Lower(v1) == Lower(v2)
    ensures VersionCompare(v1, v2) == 1 && VersionCompare(v2, v1) == 1
  {
    LexLessIrreflexive(Lower(v1));
  }

  /** Comparison is per character: "1.0.9" is above "1.0.10" and "1.10" below "1.9". */
  lemma VersionCompareNotNumeric()
    ensures VersionCompare("1.0.9", "1.0.10") == 1
    ensures VersionCompare("1.10", "1.9") == -1
    ensures VersionCompare("1.0.0", "1.0.0") == 0
    ensures VersionCompare("V1.0", "v1.0") == 1 && VersionCompare("v1.0", "V1.0") == 1
  {
    var a, b := "1.0.9", "1.0.10";
    assert a[4..] == "9" && b[4..] == "10";
    assert LexicographicalCompare(a, b) == LexicographicalCompare(a[4..], b[4..]);
    assert !LexicographicalCompare(a, b);
    var c, d := "1.10", "1.9";
    assert c[2..] == "10" && d[2..] == "9";
    assert LexicographicalCompare(c, d) == LexicographicalCompare(c[2..], d[2..]);
    assert "V1.0" != "v1.0";
    VersionCompareCaseQuirk("V1.0", "v1.0");
  }
}

=== FILE: wifimanager.dfy ===
/** The station-mode connect used after provisioning, with its two ceilings,
    and the duplicate scan over detected devices. */
module WifiManager {
  import opened Types
  import opened NvStore
  import opened WifiCredentials
  import opened Radio

  const WifiMaxTry := 10
  /** The wall-clock ceiling, in milliseconds. */
  const TimeoutMs := 300000

  /** `millis() - startTime` on `uint32_t`: the distance forward from `start`
      to `now`, counting through a wrap of the millisecond counter. */
  function Elapsed(now: uint32, start: uint32): (r: uint32)
    ensures now >= start ==> r as int == now as int - start as int
    ensures now < start ==> r as int == now as int - start as int + 0x1_0000_0000
  {
    ((now as int - start as int) % 0x1_0000_0000) as uint32
  }

  /** The counter wraps about every 49.7 days; a start just before the wrap
      and a reading just after it still measure the 300 s correctly. */
  lemma ElapsedAcrossWrap()
    ensures Elapsed(299_000, 0xFFFF_FC18) == 300_000
    ensures Elapsed(298_999, 0xFFFF_FC18) < TimeoutMs as uint32
  {
  }

  /** `connectWifi()`. `poll(k)` is the status at the k-th loop check and
      `clock(0)` the start time; `clock(k + 1)` is read in the k-th pass.
      `reset` records the call to `do_reset(false)`, which the source's comment
      describes as a reset to factory defaults. */
  method ConnectStation(store: Store, mode: Mode, poll: nat -> Status, clock: nat -> uint32)
    returns (connected: bool, reset: bool, effects: seq<Effect>, attempts: nat)
    ensures attempts <= WifiMaxTry
    ensures forall k :: 0 <= k < attempts ==> poll(k) != Connected
    ensures forall k :: 1 <= k <= attempts ==> Elapsed(clock(k), clock(0)) < TimeoutMs as uint32
    ensures reset ==>
              && !connected && attempts < WifiMaxTry && poll(attempts) != Connected
              && Elapsed(clock(attempts + 1), clock(0)) >= TimeoutMs as uint32
    ensures !reset ==>
              && (attempts == WifiMaxTry || poll(attempts) == Connected)
              && (connected <==> poll(attempts) == Connected)
    ensures effects == [StopScan, Disconnect] + (if mode == AccessPoint then [ConfigureAddress] else [])
                       + [SetHostname, SetMode(Station), Begin(LoadWiFiConfig(store))]
                       + (if reset then [DoReset] else [])
  {
    effects := [StopScan, Disconnect];
    if mode == AccessPoint {
      effects := effects + [ConfigureAddress];
    }
    var creds := LoadWiFiConfig(store);
    effects := effects + [SetHostname, SetMode(Station), Begin(creds)];
    attempts := 0;
    reset := false;
    var startTime := clock(0);
    while poll(attempts) != Connected && attempts < WifiMaxTry
      invariant attempts <= WifiMaxTry
      invariant forall k :: 0 <= k < attempts ==> poll(k) != Connected
      invariant forall k :: 1 <= k <= attempts ==> Elapsed(clock(k), startTime) < TimeoutMs as uint32
      invariant !reset
      invariant effects == [StopScan, Disconnect] + (if mode == AccessPoint then [ConfigureAddress] else [])
                           + [SetHostname, SetMode(Station), Begin(creds)]
    {
      if Elapsed(clock(attempts + 1), startTime) >= TimeoutMs as uint32 {
        effects := effects + [DoReset];
        return false, true, effects, attempts;
      }
      attempts := attempts + 1;
    }
    connected := poll(attempts) == Connected;
  }

  /** One entry of `detectedDevices`. */
  datatype DeviceInfo = DeviceInfo(macAddress: string, rssi: int)

  /** One "Duplicate device detected" report: the two indices compared. */
  datatype Duplicate = Duplicate(first: nat, second: nat)

  /** Reference predicate: a pair of distinct in-range slots with equal MAC addresses. */
  predicate IsDuplicate(devices: seq<DeviceInfo>, count: int, p: Duplicate)
    requires count <= |devices|
  {
    p.first < p.second < count && devices[p.first].macAddress == devices[p.second].macAddress
  }

  /** Reports of the inner loop for row `i`, from column `j` on. */
  function RowDuplicates(devices: seq<DeviceInfo>, count: int, i: nat, j: nat): (r: seq<Duplicate>)
    requires i < count <= |devices|
    decreases count - j
  {
    if j >= count then []
    else (if devices[i].macAddress == devices[j].macAddress then [Duplicate(i, j)] else [])
         + RowDuplicates(devices, count, i, j + 1)
  }

  /** Reports of the outer loop from row `i` on. */
  function DuplicatesFrom(devices: seq<DeviceInfo>, count: int, i: nat): (r: seq<Duplicate>)
    requires count <= |devices|
    decreases count - i
  {
    if i >= count then []
    else RowDuplicates(devices, count, i, i + 1) + DuplicatesFrom(devices, count, i + 1)
  }

  lemma {:induction false} RowDuplicatesExact(devices: seq<DeviceInfo>, count: int, i: nat, j: nat, p: Duplicate)
    requires i < j && i < count <= |devices|
    ensures p in RowDuplicates(devices, count, i, j) <==>
              p.first == i && j <= p.second && IsDuplicate(devices, count, p)
    decreases count - j
  {
    if j < count {
      var head := if devices[i].macAddress == devices[j].macAddress then [Duplicate(i, j)] else [];
      assert RowDuplicates(devices, count, i, j) == head + RowDuplicates(devices, count, i, j + 1);
      RowDuplicatesExact(devices, count, i, j + 1, p);
    }
  }

  lemma {:induction false} DuplicatesFromExact(devices: seq<DeviceInfo>, count: int, i: nat, p: Duplicate)
    requires count <= |devices|
    ensures p in DuplicatesFrom(devices, count, i) <==> i <= p.first && IsDuplicate(devices, count, p)
    decreases count - i
  {
    if i < count {
      assert DuplicatesFrom(devices, count, i)
             == RowDuplicates(devices, count, i, i + 1) + DuplicatesFrom(devices, count, i + 1);
      RowDuplicatesExact(devices, count, i, i + 1, p);
      DuplicatesFromExact(devices, count, i + 1, p);
    }
  }

  /** `analyzeDetectedDevices`: the reports, in the order the nested loops
      produce them. */
  method AnalyzeDetectedDevices(devices: seq<DeviceInfo>, count: int) returns (reports: seq<Duplicate>)
    requires count <= |devices|
    ensures reports == DuplicatesFrom(devices, count, 0)
    ensures forall p :: p in reports <==> IsDuplicate(devices, count, p)
  {
    reports := [];
    var i: nat := 0;
    while i < count
      invariant count >= 0 ==> i <= count
      invariant reports + DuplicatesFrom(devices, count, i) == DuplicatesFrom(devices, count, 0)
    {
      var j: nat := i + 1;
      while j < count
        invariant i + 1 <= j <= count
        invariant reports + RowDuplicates(devices, count, i, j) + DuplicatesFrom(devices, count, i + 1)
                  == DuplicatesFrom(devices, count, 0)
      {
        if devices[i].macAddress == devices[j].macAddress {
          reports := reports + [Duplicate(i, j)];
        }
        j := j + 1;
      }
      i := i + 1;
    }
    forall p ensures p in reports <==> IsDuplicate(devices, count, p) {
      DuplicatesFromExact(devices, count, 0, p);
    }
  }

  /** The unit test's table: two entries share a MAC address, the rest of the
      100 slots hold default-constructed entries. */
  function TestDevices(): (r: seq<DeviceInfo>)
    ensures |r| == 100
  {
    [DeviceInfo("AA:BB:CC:DD:EE:FF", -50), DeviceInfo("AA:BB:CC:DD:EE:FF", -60),
     DeviceInfo("11:22:33:44:55:66", -70)]
    + seq(97, _ => DeviceInfo("", 0))
  }

  /** On the test table with a count of 3 the only report is (0, 1). */
  lemma TestDevicesReportOnePair()
    ensures DuplicatesFrom(TestDevices(), 3, 0) == [Duplicate(0, 1)]
  {
    var d := TestDevices();
    assert d[0].macAddress == d[1].macAddress;
    assert d[0].macAddress[0] != d[2].macAddress[0];
    assert d[1].macAddress[0] != d[2].macAddress[0];
    assert RowDuplicates(d, 3, 0, 1) == [Duplicate(0, 1)];
    assert RowDuplicates(d, 3, 1, 2) == [];
    assert DuplicatesFrom(d, 3, 2) == [];
  }
}

=== FILE: wifisetup.dfy ===
/** Provisioning: joining a network with stored credentials, or falling back
    to an access point with a captive setup page. The two global flags of the
    source, `setupMode` and `isWiFiSetupInProgress`, are threaded through as
    a value. The radio is an oracle: `before` is the status the checks ahead
    of `WiFi.begin` read, and `poll(k)` the status read at the k-th check of
    the retry loop (reads with no delay between them see the same status). */
module WifiSetup {
  import opened NvStore
  import opened WifiCredentials
  import opened Radio

  const MaxAttempts := 10
  const MaxSsidLength := 32
  /** The fixed address `softAPConfig` gives the access point. */
  const ApAddress := "192.168.4.1"

  datatype Flags = Flags(setupMode: bool, inProgress: bool)

  /** Both flags are false after a reboot. */
  const BootFlags := Flags(false, false)

  /** `isInSetupMode`: true exactly when `startWiFiSetup` would return at once,
      whatever the access point calls would report. */
  function IsInSetupMode(f: Flags): (r: bool)
    ensures r <==> forall configOk, startOk :: StartWifiSetup(f, configOk, startOk).outcome == AlreadyInSetup
  {
    assert !f.setupMode ==> StartWifiSetup(f, false, false).outcome == ApConfigFailed;
    f.setupMode
  }

  /** Credentials `connectWifi` is willing to try. */
  predicate AcceptableCredentials(c: Credentials)
  {
    |c.ssid| > 0 && |c.password| > 0 && |c.ssid| <= MaxSsidLength
  }

  /** Radio states from which `connectWifi` goes on to `WiFi.begin`. */
  predicate ReadyToJoin(s: Status)
  {
    s == Connected || s == IdleStatus
  }

  /** `connectWifi(ssid, password)`: validates, then begins and polls at most
      `MaxAttempts` times. `attempts` is the number of failed polls. */
  method ConnectWifi(flags: Flags, creds: Credentials, before: Status, poll: nat -> Status)
    returns (connected: bool, after: Flags, effects: seq<Effect>, attempts: nat)
    ensures after == flags.(inProgress := false)
    ensures effects == [Disconnect, SetMode(Station)]
                       + (if AcceptableCredentials(creds) && ReadyToJoin(before) then [Begin(creds)] else [])
    ensures !(AcceptableCredentials(creds) && ReadyToJoin(before)) ==> !connected && attempts == 0
    ensures attempts <= MaxAttempts
    ensures forall k :: 0 <= k < attempts ==> poll(k) != Connected
    ensures AcceptableCredentials(creds) && ReadyToJoin(before) ==>
              && (attempts < MaxAttempts ==> poll(attempts) == Connected)
              && (connected <==> poll(attempts) == Connected)
  {
    var f := flags.(inProgress := true);
    effects := [Disconnect, SetMode(Station)];
    if |creds.ssid| == 0 || |creds.password| == 0 || |creds.ssid| > MaxSsidLength {
      return false, f.(inProgress := false), effects, 0;
    }
    if before == NoSsidAvail {
      return false, f.(inProgress := false), effects, 0;
    }
    if before != Connected && before != IdleStatus {
      return false, f.(inProgress := false), effects, 0;
    }
    effects := effects + [Begin(creds)];
    attempts := 0;
    while poll(attempts) != Connected && attempts < MaxAttempts
      invariant attempts <= MaxAttempts
      invariant forall k :: 0 <= k < attempts ==> poll(k) != Connected
    {
      attempts := attempts + 1;
    }
    connected := poll(attempts) == Connected;
    after := f.(inProgress := false);
  }

  /** How `startWiFiSetup` ends. While the portal is serving, the source
      loops on `handleClient` until a reboot. */
  datatype ApOutcome = AlreadyInSetup | ApConfigFailed | ApStartFailed | PortalServing(address: string)

  datatype SetupStart = SetupStart(flags: Flags, outcome: ApOutcome)

  /** `startWiFiSetup`: a no-op when setup mode is already on; otherwise both
      flags are raised, whether or not the access point then comes up.
      `configOk` and `startOk` are the results of `softAPConfig` and `softAP`. */
  function StartWifiSetup(flags: Flags, configOk: bool, startOk: bool): (r: SetupStart)
    ensures flags.setupMode ==> r == SetupStart(flags, AlreadyInSetup)
    ensures !flags.setupMode ==> r.flags == Flags(true, true) && r.outcome != AlreadyInSetup
    ensures r.outcome.PortalServing? <==> !flags.setupMode && configOk && startOk
    ensures r.outcome.PortalServing? ==> r.outcome.address == ApAddress
  {
    if flags.setupMode then SetupStart(flags, AlreadyInSetup)
    else
      var f := Flags(true, true);
      if !configOk then SetupStart(f, ApConfigFailed)
      else if !startOk then SetupStart(f, ApStartFailed)
      else SetupStart(f, PortalServing(ApAddress))
  }

  /** The guard makes every later call a no-op, even when the first call
      failed to bring the access point up: setup mode stays on with no portal. */
  lemma StartWifiSetupOnlyOnce(flags: Flags, configOk: bool, startOk: bool, configOk': bool, startOk': bool)
    ensures var first := StartWifiSetup(flags, configOk, startOk);
            StartWifiSetup(first.flags, configOk', startOk') == SetupStart(first.flags, AlreadyInSetup)
    ensures !flags.setupMode && !configOk ==>
              var first := StartWifiSetup(flags, configOk, startOk);
              IsInSetupMode(first.flags) && first.outcome == ApConfigFailed
  {
  }

  /** Stored credentials `initWiFiSetup` does not even try. */
  predicate NeedsSetup(c: Credentials)
  {
    c.ssid == "" || c.ssid == "default"
  }

  datatype InitOutcome = EnteredSetup(ap: ApOutcome) | TriedStation(effects: seq<Effect>)

  /** `initWiFiSetup`: setup mode for a missing or placeholder SSID, otherwise
      one `connectWifi` with the stored credentials whose result is dropped. */
  method InitWifiSetup(store: Store, flags: Flags, before: Status, poll: nat -> Status,
                       configOk: bool, startOk: bool)
    returns (after: Flags, outcome: InitOutcome)
    ensures outcome.EnteredSetup? <==> NeedsSetup(LoadWiFiConfig(store))
    ensures outcome.EnteredSetup? ==>
              StartWifiSetup(flags, configOk, startOk) == SetupStart(after, outcome.ap)
    ensures outcome.TriedStation? ==>
              && after == flags.(inProgress := false)
              && outcome.effects == [Disconnect, SetMode(Station)]
                                    + (if AcceptableCredentials(LoadWiFiConfig(store)) && ReadyToJoin(before)
                                       then [Begin(LoadWiFiConfig(store))] else [])
    ensures IsInSetupMode(after) <==> flags.setupMode || NeedsSetup(LoadWiFiConfig(store))
  {
    var creds := LoadWiFiConfig(store);
    if creds.ssid == "" || creds.ssid == "default" {
      var started := StartWifiSetup(flags, configOk, startOk);
      after := started.flags;
      outcome := EnteredSetup(started.outcome);
    } else {
      var connected, effects, attempts;
      connected, after, effects, attempts := ConnectWifi(flags, creds, before, poll);
      outcome := TriedStation(effects);
    }
  }
}
